=== FILE: README.md ===
# Survey relay: queue consumer and random reporter, in Dafny

This project models the two Python lambda handlers of the survey-relay
pipeline (ingress endpoint → queue → consumer → table):

- the **queue consumer** (`app/sqs_consumer/sqs_consumer.py`). It walks the
  queue records of one invocation. A record body that parses to a list is a
  run of messages, and any other body is one message. A message counts only
  when its `userid`, `Version` and `response` are all truthy. Each such
  message is upserted into the `acn_db_user` table under its `userid`, and
  only the `Version` and `response` attributes are set.
- the **random reporter** (`app/random_reporting/random_reporting.py`). It
  checks the `N` and `M` arguments. Then, for `N` rounds, it generates `M`
  random survey records, appends them to `output_data`, and POSTs the
  round's batch to the ingress endpoint. It returns at the first POST that
  does not answer 200.

The table is a `map<string, map<string, Value>>`: `userid` to attribute map.
JSON values are the `Json.Value` datatype. The handlers are pure functions
(the consumer) and a method with loops mirroring the Python (the reporter).
Every effect of the handlers' own calls is a parameter:

- the outcome of each `update_item` call is a `StoreOracle` indexed by
  (record number, message number);
- the random generator is an `Entropy` stream indexed by draw number;
- the outcome of each POST is a `Poster`, applied to the round number and
  the batch.

Modules:

- `Wrappers`: `Option` and `Result`.
- `Json` and `Schema`: values, Python truthiness, `dict.get`, the reply
  shape, and the field names.
- `Store`: the table and its two write operations.
- `Consumer`: `process_message` and `lambda_handler` of the consumer.
- `ConsumerProperties`: the fold properties of the consumer.
- `Reporting`: the generator and the reporter's `lambda_handler`. The
  recursive reference for the send loop (`SendFrom`) and its contract
  (`Reported`) are stated for any round generator (`RoundGenerator`); the
  loop itself (`SendRounds`) instantiates them with the round that generates
  `M` records (`Round`).
- `Pipeline`: reporter output as the consumer sees it.

## Model

| member | source | states |
|---|---|---|
| Store.UpdateItem | app/sqs_consumer/sqs_consumer.py:34-50 | After the update the key's item holds the given `Version` and `response`; every other key is unchanged; on an existing item every other attribute keeps its value and the attribute set grows by exactly those two; on a missing key the item is created from the key and the two values; items stay keyed by their own `userid` |
| Store.PutItem | app/sqs_consumer/sqs_consumer.py:51-53 | The fallback write replaces the key's item by exactly `userid`, `Version`, `response`; no other key changes; items stay keyed by their own `userid` |
| Store.PutMatchesUpdateOnNewKey | app/sqs_consumer/sqs_consumer.py:51-53 | On a key the table does not hold, the fallback `put_item` leaves the same table as the update would |
| Store.PutDropsOtherAttributes | app/sqs_consumer/sqs_consumer.py:51-53 | On a key the table holds, the fallback and the update agree exactly when the old item had no attribute besides the three written |
| Json.Field | app/sqs_consumer/sqs_consumer.py:26-28 | `message.get(name)` yields the field when present and a falsy value (`None`) when absent |
| Consumer.ProcessMessage | app/sqs_consumer/sqs_consumer.py:25-55 | It raises exactly for a non-dictionary message or a failed fallback `put_item`; a message missing a truthy field, or whose update failed, leaves the table unchanged; a write leaves the message's `Version` and `response` under its `userid`; only that key can change; an applied update keeps the item's other attributes |
| Consumer.ProcessMessages | app/sqs_consumer/sqs_consumer.py:15-16 | A run of messages never removes a key, keeps items keyed by their own `userid`, and ends without an exception exactly when no message in it raises |
| Consumer.Handle | app/sqs_consumer/sqs_consumer.py:8-23 | Whenever the handler returns, it returns status 200 with the fixed success body; items stay keyed by their own `userid` |
| Consumer.HandleReturnsOnlySuccess | app/sqs_consumer/sqs_consumer.py:8-23 | From any record on, a returned reply is the 200 reply, and the key invariant of the table is preserved |
| ConsumerProperties.Untouched | app/sqs_consumer/sqs_consumer.py:43-55 | A key that no message of a run writes keeps its entry exactly, present or absent |
| ConsumerProperties.LastWriteWins | app/sqs_consumer/sqs_consumer.py:14-16 | When several messages of a run write the same `userid`, its entry ends with the `Version` and `response` of the last one that reached the table |
| ConsumerProperties.InertMessageContained | app/sqs_consumer/sqs_consumer.py:25-55 | A dictionary message that is incomplete, badly keyed or whose update failed changes nothing: the run ends exactly as if that message were absent |
| ConsumerProperties.StoreFailureContained | app/sqs_consumer/sqs_consumer.py:54-55 | A caught store failure on one message leaves the run exactly as if that message were absent, so every other message is still processed |
| ConsumerProperties.ProcessConcat | app/sqs_consumer/sqs_consumer.py:15-16 | Running two message runs back to back equals running their concatenation, stopping at the first exception |
| ConsumerProperties.HandleIsOneFold | app/sqs_consumer/sqs_consumer.py:8-18 | The handler leaves the same table as one in-order run over every message of every record, and returns exactly when that run raises nothing |
| ConsumerProperties.UnparsableRecordRaises | app/sqs_consumer/sqs_consumer.py:11 | A record body that `json.loads` rejects makes the handler raise instead of returning |
| ConsumerProperties.BenignBatchSucceeds | app/sqs_consumer/sqs_consumer.py:20-23 | When every record parses, every message is a dictionary and no fallback write raises, the handler processes all records and returns status 200 |
| ConsumerProperties.SingleMessageBody | app/sqs_consumer/sqs_consumer.py:17-18 | A body that is not a list is processed as exactly one message |
| ConsumerProperties.ListBody | app/sqs_consumer/sqs_consumer.py:14-16 | A list body is processed element by element, in order, as one run |
| Reporting.AlphabetIsAsciiAlnum | app/random_reporting/random_reporting.py:25 | Every character of the `userid` population is an ASCII letter or digit |
| Reporting.UserId | app/random_reporting/random_reporting.py:25 | A generated `userid` has exactly 6 characters, each an ASCII letter or digit |
| Reporting.DecimalShape | app/random_reporting/random_reporting.py:26 | The decimal spelling of a number is non-empty, ends in its last digit, and from 10 on is the spelling of the number divided by ten followed by that digit |
| Reporting.DecimalInjective | app/random_reporting/random_reporting.py:26 | Distinct numbers have distinct decimal spellings, so the question keys cannot collide |
| Reporting.QuestionKeyInjective | app/random_reporting/random_reporting.py:26 | The keys `q1`, `q2`, ... are pairwise distinct |
| Reporting.QuestionKeysCount | app/random_reporting/random_reporting.py:26 | There are exactly `k` keys for `k` questions |
| Reporting.QuestionKeysExactly | app/random_reporting/random_reporting.py:26 | The key set for `k` questions holds `q1`..`qk` and nothing else |
| Reporting.AnswerText | app/random_reporting/random_reporting.py:26 | Every answer is `value1`, `value2` or `value3` |
| Reporting.AnswersShape | app/random_reporting/random_reporting.py:26 | The answers to `k` questions are keyed exactly `q1`..`qk`, each answered `value1`..`value3` |
| Reporting.GenerateRecord | app/random_reporting/random_reporting.py:25-31 | One record consumes between 8 and 17 draws |
| Reporting.GenerateRecordDraws | app/random_reporting/random_reporting.py:25-26 | One record consumes the six `userid` draws, the question-count draw and exactly one draw per question it answers |
| Reporting.GenerateRecordWellShaped | app/random_reporting/random_reporting.py:25-31 | Every record has exactly the fields `Version`, `userid`, `response`, with the fixed version, a 6-character alphanumeric `userid` and between 1 and 10 answered questions |
| Reporting.GenerateBatch | app/random_reporting/random_reporting.py:23-32 | A round yields exactly `m` records and never goes back in the draw stream |
| Reporting.GenerateBatchWellShaped | app/random_reporting/random_reporting.py:23-32 | Every record of a round has the generated shape |
| Reporting.GenerateRound | app/random_reporting/random_reporting.py:23-32 | The inner loop builds the same batch, and stops at the same draw, as the recursive definition of a round |
| Reporting.GenerateBatches | app/random_reporting/random_reporting.py:22-32 | `n` rounds yield `n` batches of `m` records each |
| Reporting.GenerateBatchesWellShaped | app/random_reporting/random_reporting.py:22-32 | Every record of every round has the generated shape |
| Reporting.ScheduleOfRound | app/random_reporting/random_reporting.py:22-32 | Running the handler's round `n` times, each from where the previous one stopped, yields the generated batches |
| Reporting.FlattenLength | app/random_reporting/random_reporting.py:35 | Joining `n` batches of `m` records yields `n*m` records |
| Reporting.FailureReply | app/random_reporting/random_reporting.py:41-52 | A POST that is not delivered produces a non-200 reply: its own status when it answered, 500 when it raised |
| Reporting.FailedRunReported | app/random_reporting/random_reporting.py:41-52 | A run whose last sent batch is the first undelivered one, and which replies from that batch's outcome, meets the reporter's contract |
| Reporting.SendFromReported | app/random_reporting/random_reporting.py:22-60 | From any round reached by delivering the scheduled batches, the remaining rounds send at most `N` batches in generation order, every one before the last delivered; they reply 200 exactly when all rounds were sent and delivered, with `output_data` the sent records in order, and otherwise reply from the first undelivered batch's outcome |
| Reporting.SendRounds | app/random_reporting/random_reporting.py:20-60 | The handler's loop, with its early return, yields the same run as the recursive definition of the rounds |
| Reporting.Handle | app/random_reporting/random_reporting.py:7-60 | Without `N` or `M` it replies 400 and sends nothing; otherwise it sends at most `max(N,0)` batches in generation order, every batch before the last delivered; it replies 200 exactly when all rounds were sent and delivered, with `output_data` the sent records in order; otherwise the last sent batch is the first undelivered one and the reply is built from its outcome |
| Reporting.ReportedBatchesWellShaped | app/random_reporting/random_reporting.py:22-35 | In a run of the handler each sent batch has exactly `max(M,0)` well-shaped records, and a run that replies 200 outputs `max(N,0)*max(M,0)` records |
| Pipeline.GeneratedRecordPassesValidation | app/random_reporting/random_reporting.py:25-31 | Every generated record has a truthy `userid`, `Version` and `response`, so it passes the consumer's check and is keyed by its own `userid` |
| Pipeline.GeneratedBatchIsStored | app/sqs_consumer/sqs_consumer.py:14-49 | A generated batch delivered as one list body, with every update applied, is stored whole: the consumer returns 200, and each `userid` holds the fixed version and the `response` of the last record generated for it |


Definitions the rows above are stated against, with no contract of their own:

- `Json.Truthy`: Python truthiness of a JSON value, as `not x` tests it at `app/sqs_consumer/sqs_consumer.py:30`.
- `Consumer.Complete`: the check at `app/sqs_consumer/sqs_consumer.py:26-30` that `userid`, `Version` and `response` are all truthy.
- `Consumer.Target`: the key a complete message is written under (`app/sqs_consumer/sqs_consumer.py:45`); a truthy `userid` that is not a string has none.
- `Consumer.Messages`: the list or single-message dispatch at `app/sqs_consumer/sqs_consumer.py:14-18`.
- `Consumer.Outcomes`: the store oracle's outcomes for the messages of one record.
- `Consumer.HandleFrom`: the record loop at `app/sqs_consumer/sqs_consumer.py:9-19`, from a given record on; `Consumer.Handle` starts it at the first record.
- `Reporting.Answers`: the response comprehension at `app/random_reporting/random_reporting.py:26`.
- `Reporting.Record`: the record dictionary at `app/random_reporting/random_reporting.py:27-31`.
- `Reporting.Rounds`: how many times `range(x)` runs, `max(x, 0)` (`app/random_reporting/random_reporting.py:22,24`).

## Left out

- The infrastructure stacks (`lib/cdk-quicksight-monitoring-stack.ts`, `lib/cdk-quicksight-stack.ts`, `bin/cdk-quicksight-monitoring.ts`): these declare the API gateway, queue, IAM role, table and Athena named queries, and are not modelled as code. Three of their settings shape what the model assumes: the table's string partition key (`lib/cdk-quicksight-monitoring-stack.ts:153`, see the table-service line below), the two handlers' timeouts (see the deadline lines below), and the gateway's request template `Action=SendMessage&MessageBody=$input.body` (`lib/cdk-quicksight-monitoring-stack.ts:66`), which makes a POSTed batch the body of one queue record; `Pipeline.GeneratedBatchIsStored` assumes that mapping. The queue's delivery, visibility timeout and redelivery are not modelled either.
- `json.loads` and `json.dumps`: record bodies come already parsed (`Consumer.Body`), or as `Unparsable`, which makes the handler raise. Reply bodies are the JSON values before encoding. JSON numbers are integers: fractions are left out. `json.loads` turns a fraction into a Python float, and the table client refuses floats inside `update_item` (`app/sqs_consumer/sqs_consumer.py:44-50`). The handler catches that error (`app/sqs_consumer/sqs_consumer.py:54-55`), so a complete message with a fractional `Version` or `response` behaves like the store outcome `Failed`: it is not stored.
- `event['Records']` or `record['body']` missing: the consumer event is given as its list of records, so the `KeyError` these would raise is not modelled.
- The table service: each `update_item` outcome is an oracle (`Consumer.StoreOutcome`). A truthy `userid` that is not a string is treated as refused by the table's string partition key (`lib/cdk-quicksight-monitoring-stack.ts:153`), and that refusal is caught like any other store error. The service's other value-type limits and the `ReturnValues` result, which the handler ignores, are not modelled.
- The `ConditionalCheckFailedException` fallback: no condition expression is given, so this path is not expected to occur. It is still modelled as the oracle outcome `ConditionFailed`.
- `print` logging in both handlers.
- The randomness of `random`: draws come from an arbitrary stream, and each draw is reduced into the range the library call promises. The distribution is not modelled.
- Concurrent consumer invocations: the queue is attached with a plain event source and no concurrency limit (`lib/cdk-quicksight-monitoring-stack.ts:148`), so several invocations may write the table at once. Their writes are not modelled: `Consumer.Handle` maps a table to a table, and the consumer properties (`ConsumerProperties.Untouched`, `ConsumerProperties.LastWriteWins`, `Pipeline.GeneratedBatchIsStored` and the rest) describe one invocation with exclusive use of the table.
- The consumer's invocation deadline: the stack gives the consumer a 60-second timeout (`lib/cdk-quicksight-monitoring-stack.ts:141`). An invocation whose records take longer is killed part-way, after some writes and before the 200 return, so `Consumer.Handle`'s "returns 200" and `ConsumerProperties.BenignBatchSucceeds` hold only for invocations that finish within the deadline.
- The reporter's invocation deadline: the stack gives the reporter a 1-minute timeout (`lib/cdk-quicksight-monitoring-stack.ts:20`), and each delivered round sleeps one second (`app/random_reporting/random_reporting.py:55`). A deployed run with `N` of 60 or more is therefore killed before its 200 return, and `Reporting.Handle`'s "200 exactly when all rounds were delivered" holds only for runs that finish within the deadline.
- `sleep(1)`, the endpoint URL, the request headers and the JSON encoding of the POST body.
- HTTP: the POST outcome is an oracle (`Reporting.PostResult`). Whether `urlopen` reports a given status as a response or raises `HTTPError` is left to that oracle.
- `int(event['N'])` and `int(event['M'])`: the event maps names to integers. The `ValueError` a non-numeric argument raises is not caught by the handler and is not modelled.
- The order of keys inside JSON objects: objects are maps, as Python dictionaries compare.

=== FILE: consumer_properties.dfy ===
/** What a batch of messages does to the table, and how the handler relates to one fold over all its messages. */
module ConsumerProperties {
  import opened Wrappers
  import opened Json
  import opened Schema
  import opened Store
  import opened Consumer

  /** Message `j` writes under key `u`. */
  predicate WritesKey(m: Value, o: StoreOutcome, u: string) {
    Writes(m, o) && Target(m) == Some(u)
  }

  /** A key no message of the run writes keeps its entry, present or absent. */
  lemma {:induction false} Untouched(t: Table, msgs: seq<Value>, outs: seq<StoreOutcome>, u: string)
    requires |outs| == |msgs|
    requires forall j :: 0 <= j < |msgs| ==> !WritesKey(msgs[j], outs[j], u)
    ensures var r := ProcessMessages(t, msgs, outs).table;
      && (u in r <==> u in t)
      && (u in t ==> r[u] == t[u])
    decreases |msgs|
  {
    if |msgs| > 0 {
      var step := ProcessMessage(t, msgs[0], outs[0]);
      if step.Success? {
        assert !WritesKey(msgs[0], outs[0], u);
        assert u in step.value <==> u in t;
        assert u in t ==> step.value[u] == t[u];
        Untouched(step.value, msgs[1..], outs[1..], u);
      }
    }
  }

  /**
    Messages run in order, so when several write the same key, the entry holds
    the `Version` and `response` of the last one that reached the table.
  */
  lemma {:induction false} LastWriteWins(t: Table, msgs: seq<Value>, outs: seq<StoreOutcome>, k: nat, u: string)
    requires |outs| == |msgs| && k < |msgs|
    requires forall j :: 0 <= j <= k ==> !Raises(msgs[j], outs[j])
    requires WritesKey(msgs[k], outs[k], u)
    requires forall j :: k < j < |msgs| ==> !WritesKey(msgs[j], outs[j], u)
    ensures var r := ProcessMessages(t, msgs, outs).table;
      && u in r
      && VersionField in r[u] && r[u][VersionField] == Field(msgs[k], VersionField)
      && ResponseField in r[u] && r[u][ResponseField] == Field(msgs[k], ResponseField)
    decreases |msgs|
  {
    var step := ProcessMessage(t, msgs[0], outs[0]);
    assert step.Success?;
    if k == 0 {
      Untouched(step.value, msgs[1..], outs[1..], u);
    } else {
      LastWriteWins(step.value, msgs[1..], outs[1..], k - 1, u);
    }
  }

  /** Drop element `k` of a sequence. */
  function Without<T>(s: seq<T>, k: nat): (r: seq<T>)
    requires k < |s|
    ensures |r| == |s| - 1
  {
    s[..k] + s[k + 1..]
  }

  /**
    A dictionary message that leaves the table alone (incomplete, badly keyed,
    or whose update failed) is contained: the run ends exactly as if it were not
    in the batch, so every other message is still processed.
  */
  lemma {:induction false} InertMessageContained(t: Table, msgs: seq<Value>, outs: seq<StoreOutcome>, k: nat)
    requires |outs| == |msgs| && k < |msgs|
    requires Inert(msgs[k], outs[k])
    ensures ProcessMessages(t, msgs, outs) == ProcessMessages(t, Without(msgs, k), Without(outs, k))
    decreases |msgs|
  {
    if k == 0 {
      assert Without(msgs, 0) == msgs[1..];
      assert Without(outs, 0) == outs[1..];
    } else {
      var step := ProcessMessage(t, msgs[0], outs[0]);
      assert Without(msgs, k)[0] == msgs[0] && Without(outs, k)[0] == outs[0];
      assert Without(msgs, k)[1..] == Without(msgs[1..], k - 1);
      assert Without(outs, k)[1..] == Without(outs[1..], k - 1);
      if step.Success? {
        InertMessageContained(step.value, msgs[1..], outs[1..], k - 1);
      }
    }
  }

  /** A failed update in particular is contained to its own message. */
  lemma StoreFailureContained(t: Table, msgs: seq<Value>, outs: seq<StoreOutcome>, k: nat)
    requires |outs| == |msgs| && k < |msgs|
    requires msgs[k].Obj? && outs[k] == Failed
    ensures ProcessMessages(t, msgs, outs) == ProcessMessages(t, Without(msgs, k), Without(outs, k))
  {
    InertMessageContained(t, msgs, outs, k);
  }

  /** Running two batches back to back is running their concatenation. */
  lemma {:induction false} ProcessConcat(t: Table, a: seq<Value>, oa: seq<StoreOutcome>, b: seq<Value>, ob: seq<StoreOutcome>)
    requires |oa| == |a| && |ob| == |b|
    ensures var pa := ProcessMessages(t, a, oa);
      ProcessMessages(t, a + b, oa + ob)
        == if pa.crash.Some? then pa else ProcessMessages(pa.table, b, ob)
    decreases |a|
  {
    if |a| == 0 {
      assert a + b == b && oa + ob == ob;
    } else {
      assert (a + b)[0] == a[0] && (oa + ob)[0] == oa[0];
      assert (a + b)[1..] == a[1..] + b && (oa + ob)[1..] == oa[1..] + ob;
      var step := ProcessMessage(t, a[0], oa[0]);
      if step.Success? {
        ProcessConcat(step.value, a[1..], oa[1..], b, ob);
      }
    }
  }

  /** Every record body was accepted by `json.loads`. */
  predicate AllParsed(records: seq<QueueRecord>) {
    forall i :: 0 <= i < |records| ==> records[i].body.Parsed?
  }

  /** The messages of records `i..`, in handler order. */
  function MessagesFrom(records: seq<QueueRecord>, i: nat): seq<Value>
    requires AllParsed(records) && i <= |records|
    decreases |records| - i
  {
    if i == |records| then [] else Messages(records[i].body.value) + MessagesFrom(records, i + 1)
  }

  /** The store outcomes those messages meet. */
  function OutcomesFrom(records: seq<QueueRecord>, i: nat, store: StoreOracle): (outs: seq<StoreOutcome>)
    requires AllParsed(records) && i <= |records|
    ensures |outs| == |MessagesFrom(records, i)|
    decreases |records| - i
  {
    if i == |records| then []
    else Outcomes(store, i, |Messages(records[i].body.value)|) + OutcomesFrom(records, i + 1, store)
  }

  /**
    The handler is one fold over all messages of all records in order: it leaves
    the same table, and returns exactly when the fold raises nothing.
  */
  lemma {:induction false} HandleIsOneFold(t: Table, records: seq<QueueRecord>, i: nat, store: StoreOracle)
    requires AllParsed(records) && i <= |records|
    ensures var h := HandleFrom(t, records, i, store);
      var p := ProcessMessages(t, MessagesFrom(records, i), OutcomesFrom(records, i, store));
      && h.table == p.table
      && (h.reply.Success? <==> p.crash.None?)
    decreases |records| - i
  {
    if i < |records| {
      var msgs := Messages(records[i].body.value);
      var outs := Outcomes(store, i, |msgs|);
      ProcessConcat(t, msgs, outs, MessagesFrom(records, i + 1), OutcomesFrom(records, i + 1, store));
      var p := ProcessMessages(t, msgs, outs);
      if p.crash.None? {
        HandleIsOneFold(p.table, records, i + 1, store);
      }
    }
  }

  /** A record whose body `json.loads` rejects makes the handler raise instead of returning. */
  lemma {:induction false} UnparsableRecordRaises(t: Table, records: seq<QueueRecord>, i: nat, store: StoreOracle, k: nat)
    requires i <= k < |records| && records[k].body.Unparsable?
    ensures HandleFrom(t, records, i, store).reply.Failure?
    decreases k - i
  {
    if i < k && records[i].body.Parsed? {
      var msgs := Messages(records[i].body.value);
      var p := ProcessMessages(t, msgs, Outcomes(store, i, |msgs|));
      assert HandleFrom(t, records, i, store)
        == if p.crash.Some? then Invocation(p.table, Failure(p.crash.value)) else HandleFrom(p.table, records, i + 1, store);
      if p.crash.None? {
        UnparsableRecordRaises(p.table, records, i + 1, store, k);
      }
    }
  }

  /** Every record parses, every message is a dictionary, and no fallback `put_item` raises. */
  predicate Benign(records: seq<QueueRecord>, store: StoreOracle) {
    && AllParsed(records)
    && (forall i, j :: 0 <= i < |records| && 0 <= j < |Messages(records[i].body.value)| ==>
          Messages(records[i].body.value)[j].Obj?)
    && (forall i, j :: 0 <= i < |records| && 0 <= j < |Messages(records[i].body.value)| ==>
          store(i, j) != ConditionFailed(false))
  }

  /** Once every record has been processed without an exception, the handler returns status 200. */
  lemma {:induction false} BenignBatchSucceeds(t: Table, records: seq<QueueRecord>, i: nat, store: StoreOracle)
    requires Benign(records, store) && i <= |records|
    ensures HandleFrom(t, records, i, store).reply == Success(SuccessReply)
    decreases |records| - i
  {
    if i < |records| {
      var msgs := Messages(records[i].body.value);
      var outs := Outcomes(store, i, |msgs|);
      assert forall j :: 0 <= j < |msgs| ==> !Raises(msgs[j], outs[j]);
      var p := ProcessMessages(t, msgs, outs);
      BenignBatchSucceeds(p.table, records, i + 1, store);
    }
  }

  /** A body that is not a list is processed as exactly one message. */
  lemma SingleMessageBody(t: Table, v: Value, store: StoreOracle)
    requires !v.Arr?
    ensures var h := Handle(t, [QueueRecord(Parsed(v))], store);
      match ProcessMessage(t, v, store(0, 0))
      case Success(t') => h == Invocation(t', Success(SuccessReply))
      case Failure(e) => h == Invocation(t, Failure(e))
  {
    var records := [QueueRecord(Parsed(v))];
    var outs := Outcomes(store, 0, 1);
    assert Messages(v) == [v];
    var p := ProcessMessages(t, [v], outs);
    assert outs[0] == store(0, 0);
    match ProcessMessage(t, v, store(0, 0)) {
      case Success(t') =>
        assert p == ProcessMessages(t', [], []) by { assert [v][1..] == [] && outs[1..] == []; }
      case Failure(e) =>
        assert p == Progress(t, Some(e));
    }
    assert HandleFrom(t, records, 0, store)
      == if p.crash.Some? then Invocation(p.table, Failure(p.crash.value)) else HandleFrom(p.table, records, 1, store);
  }

  /** A list body is processed element by element, in order, as one run. */
  lemma ListBody(t: Table, items: seq<Value>, store: StoreOracle)
    ensures var h := Handle(t, [QueueRecord(Parsed(Arr(items)))], store);
      var p := ProcessMessages(t, items, Outcomes(store, 0, |items|));
      && h.table == p.table
      && (h.reply.Success? <==> p.crash.None?)
  {
    var records := [QueueRecord(Parsed(Arr(items)))];
    var p := ProcessMessages(t, items, Outcomes(store, 0, |items|));
    assert HandleFrom(t, records, 0, store)
      == if p.crash.Some? then Invocation(p.table, Failure(p.crash.value)) else HandleFrom(p.table, records, 1, store);
  }
}

=== FILE: json.dfy ===
/** Already-parsed JSON values, as the handlers see them after `json.loads`. */
module Json {

  /**
    A JSON value. Numbers are integers: fractions are left out. The table
    client refuses a fraction inside `update_item`, so a complete message
    whose `Version` or `response` carries one behaves like the store outcome
    `Failed`.
  */
  datatype Value =
    | Null
    | Bool(b: bool)
    | Num(n: int)
    | Str(s: string)
    | Arr(items: seq<Value>)
    | Obj(fields: map<string, Value>)

  /** Python truthiness of a parsed value: `None`, `False`, `0`, `""`, `[]` and `{}` are false. */
  predicate Truthy(v: Value) {
    match v
    case Null => false
    case Bool(b) => b
    case Num(n) => n != 0
    case Str(s) => s != ""
    case Arr(items) => items != []
    case Obj(fields) => fields != map[]
  }

  /**
    `v.get(name)` on a dictionary: `None` when the key is absent. `Field` is
    total; on a non-object Python raises instead, so callers test `Obj?` first.
  */
  function Field(v: Value, name: string): (r: Value)
    ensures v.Obj? && name in v.fields ==> r == v.fields[name]
    ensures !(v.Obj? && name in v.fields) ==> !Truthy(r)
  {
    if v.Obj? && name in v.fields then v.fields[name] else Null
  }

  /** What a lambda handler returns: a status code and the body before `json.dumps`. */
  datatype Reply = Reply(statusCode: int, body: Value)
}

/** The three message fields the reporter writes and the consumer reads and stores. */
module Schema {
  const UserIdField: string := "userid"
  const VersionField: string := "Version"
  const ResponseField: string := "response"
}

=== FILE: pipeline.dfy ===
/** The reporter's batches as the consumer sees them once the queue delivers them. */
module Pipeline {
  import opened Wrappers
  import opened Json
  import opened Schema
  import opened Store
  import opened Consumer
  import opened ConsumerProperties
  import Reporting

  /** Every generated record passes the consumer's check and is keyed by its own `userid`. */
  lemma GeneratedRecordPassesValidation(v: Value)
    requires Reporting.WellShaped(v)
    ensures Complete(v)
    ensures Target(v) == Some(v.fields[UserIdField].s)
  {
  }

  /**
    A generated batch, delivered as one queue record whose body is the POSTed
    list, is stored whole: the handler returns 200, and every `userid` holds
    the `Version` and `response` of the last record generated for it.
  */
  lemma GeneratedBatchIsStored(t: Table, batch: seq<Value>, store: StoreOracle, k: nat)
    requires forall j :: 0 <= j < |batch| ==> Reporting.WellShaped(batch[j])
    requires forall j :: 0 <= j < |batch| ==> store(0, j) == Applied
    requires k < |batch|
    requires forall j :: k < j < |batch| ==> Field(batch[j], UserIdField) != Field(batch[k], UserIdField)
    ensures var h := Handle(t, [QueueRecord(Parsed(Arr(batch)))], store);
      var u := Target(batch[k]).GetOr("");
      && h.reply == Success(SuccessReply)
      && u in h.table
      && VersionField in h.table[u] && h.table[u][VersionField] == Str(Reporting.VersionTag)
      && ResponseField in h.table[u] && h.table[u][ResponseField] == Field(batch[k], ResponseField)
  {
    var outs := Outcomes(store, 0, |batch|);
    var u := Target(batch[k]).GetOr("");
    forall j | 0 <= j < |batch|
      ensures Target(batch[j]) == Some(batch[j].fields[UserIdField].s) && outs[j] == Applied
    {
      GeneratedRecordPassesValidation(batch[j]);
    }
    assert WritesKey(batch[k], outs[k], u);
    LastWriteWins(t, batch, outs, k, u);
    ListBody(t, batch, store);
  }
}

=== FILE: random_reporting.dfy ===
/**
  The random reporter: for each of `N` rounds it generates `M` survey records,
  appends them to the output, and POSTs the round's batch to the ingress
  endpoint, returning at the first POST that does not answer 200. The random
  generator and the HTTP outcome are parameters.
*/
module Reporting {
  import opened Json
  import opened Schema

  const AsciiLowercase: string := "abcdefghijklmnopqrstuvwxyz"
  const AsciiUppercase: string := "ABCDEFGHIJKLMNOPQRSTUVWXYZ"
  const AsciiLetters: string := AsciiLowercase + AsciiUppercase
  const Digits: string := "0123456789"
  /** `string.ascii_letters + string.digits`, the population `userid` characters are drawn from. */
  const Alphabet: string := AsciiLetters + Digits
  const IdLength: nat := 6
  const VersionTag: string := "your_version_here"
  /** `random.randint(1, 10)` questions per record. */
  const MaxQuestions: nat := 10
  /** `random.randint(1, 3)` picks the answer `value1`..`value3`. */
  const AnswerKinds: nat := 3

  /**
    The generator's output stream: draw number to raw value. Each draw is
    reduced into the range the library call promises. Every run of Python's
    generator is some stream, so what holds for all streams holds for it.
  */
  type Entropy = nat -> nat

  /** A generated value and the number of the next unused draw. */
  datatype Generated<T> = Generated(value: T, next: nat)

  predicate IsAsciiAlnum(c: char) {
    ('a' <= c <= 'z') || ('A' <= c <= 'Z') || ('0' <= c <= '9')
  }

  lemma AlphabetIsAsciiAlnum(i: nat)
    requires i < |Alphabet|
    ensures IsAsciiAlnum(Alphabet[i])
  {
  }

  /** The decimal digit for `d`. */
  function DigitChar(d: nat): (c: char)
    requires d < 10
    ensures '0' <= c <= '9'
  {
    ('0' as int + d) as char
  }

  /** `str(n)` for a non-negative integer: decimal digits, no leading zero. */
  function Decimal(n: nat): string
    decreases n
  {
    if n < 10 then [DigitChar(n)] else Decimal(n / 10) + [DigitChar(n % 10)]
  }

  /** The spelling ends in the last digit, and takes two or more digits from 10 on. */
  lemma DecimalShape(n: nat)
    ensures |Decimal(n)| >= 1
    ensures n >= 10 ==> |Decimal(n)| >= 2 && Decimal(n)[..|Decimal(n)| - 1] == Decimal(n / 10)
    ensures Decimal(n)[|Decimal(n)| - 1] == DigitChar(n % 10)
  {
  }

  /** Distinct numbers have distinct decimal spellings. */
  lemma {:induction false} DecimalInjective(a: nat, b: nat)
    requires Decimal(a) == Decimal(b)
    ensures a == b
    decreases a
  {
    DecimalShape(a);
    DecimalShape(b);
    if a >= 10 && b >= 10 {
      DecimalInjective(a / 10, b / 10);
    }
  }

  /** The key of question `i`: `f'q{idx+1}'` with `i == idx + 1`. */
  function QuestionKey(i: nat): string {
    "q" + Decimal(i)
  }

  lemma QuestionKeyInjective(i: nat, j: nat)
    requires QuestionKey(i) == QuestionKey(j)
    ensures i == j
  {
    assert QuestionKey(i)[1..] == Decimal(i);
    assert QuestionKey(j)[1..] == Decimal(j);
    DecimalInjective(i, j);
  }

  /** The keys `q1`..`qk`. */
  function QuestionKeys(k: nat): set<string>
    decreases k
  {
    if k == 0 then {} else QuestionKeys(k - 1) + {QuestionKey(k)}
  }

  /** There are exactly `k` question keys: no two questions share a key. */
  lemma {:induction false} QuestionKeysCount(k: nat)
    ensures |QuestionKeys(k)| == k
    decreases k
  {
    if k > 0 {
      QuestionKeysCount(k - 1);
      if QuestionKey(k) in QuestionKeys(k - 1) {
        QuestionKeysBelow(k - 1, QuestionKey(k));
        var i :| 1 <= i <= k - 1 && QuestionKey(k) == QuestionKey(i);
        QuestionKeyInjective(k, i);
      }
    }
  }

  /** Every key of `QuestionKeys(k)` is the key of some question `1..k`. */
  lemma {:induction false} QuestionKeysBelow(k: nat, key: string)
    requires key in QuestionKeys(k)
    ensures exists i :: 1 <= i <= k && key == QuestionKey(i)
    decreases k
  {
    if k == 0 {
      assert false;
    } else if key != QuestionKey(k) {
      QuestionKeysBelow(k - 1, key);
    }
  }

  lemma {:induction false} QuestionKeyListed(k: nat, i: nat)
    requires 1 <= i <= k
    ensures QuestionKey(i) in QuestionKeys(k)
    decreases k
  {
    if i < k {
      QuestionKeyListed(k - 1, i);
    }
  }

  /** `QuestionKeys(k)` is exactly `{q1, ..., qk}`. */
  lemma {:induction false} QuestionKeysExactly(k: nat)
    ensures forall i :: 1 <= i <= k ==> QuestionKey(i) in QuestionKeys(k)
    ensures forall key :: key in QuestionKeys(k) ==> exists i :: 1 <= i <= k && key == QuestionKey(i)
    decreases k
  {
    forall i | 1 <= i <= k
      ensures QuestionKey(i) in QuestionKeys(k)
    {
      QuestionKeyListed(k, i);
    }
    forall key | key in QuestionKeys(k)
      ensures exists i :: 1 <= i <= k && key == QuestionKey(i)
    {
      QuestionKeysBelow(k, key);
    }
  }

  /** An answer: `value1`, `value2` or `value3`. */
  predicate IsAnswer(v: Value) {
    v == Str("value1") || v == Str("value2") || v == Str("value3")
  }

  /** `f'value{random.randint(1,3)}'` for the raw draw `raw`. */
  function AnswerText(raw: nat): (v: Value)
    ensures IsAnswer(v)
  {
    var d := 1 + raw % AnswerKinds;
    assert Decimal(d) == [DigitChar(d)];
    Str("value" + Decimal(d))
  }

  /** The answers to questions `1..k`, the answer to question `i` taken from draw `p + i - 1`. */
  function Answers(draw: Entropy, p: nat, k: nat): map<string, Value>
    decreases k
  {
    if k == 0 then map[]
    else Answers(draw, p, k - 1)[QuestionKey(k) := AnswerText(draw(p + k - 1))]
  }

  /** The answers to `k` questions are keyed exactly `q1`..`qk`, each answered `value1`..`value3`. */
  lemma {:induction false} AnswersShape(draw: Entropy, p: nat, k: nat)
    ensures Answers(draw, p, k).Keys == QuestionKeys(k)
    ensures forall key :: key in Answers(draw, p, k) ==> IsAnswer(Answers(draw, p, k)[key])
    decreases k
  {
    if k > 0 {
      AnswersShape(draw, p, k - 1);
    }
  }

  /** Six characters, each an ASCII letter or digit. */
  predicate IsUserId(s: string) {
    |s| == IdLength && forall i :: 0 <= i < |s| ==> IsAsciiAlnum(s[i])
  }

  /** Between 1 and 10 questions, keyed exactly `q1`..`qk`, each answered `value1`..`value3`. */
  predicate IsResponse(r: map<string, Value>) {
    && 1 <= |r| <= MaxQuestions
    && r.Keys == QuestionKeys(|r|)
    && (forall key :: key in r ==> IsAnswer(r[key]))
  }

  /** The shape of every generated record. */
  predicate WellShaped(v: Value) {
    && v.Obj?
    && v.fields.Keys == {VersionField, UserIdField, ResponseField}
    && v.fields[VersionField] == Str(VersionTag)
    && v.fields[UserIdField].Str? && IsUserId(v.fields[UserIdField].s)
    && v.fields[ResponseField].Obj? && IsResponse(v.fields[ResponseField].fields)
  }

  /** `''.join(random.choices(string.ascii_letters + string.digits, k=6))` from draws `p..p+5`. */
  function UserId(draw: Entropy, p: nat): (id: string)
    ensures IsUserId(id)
  {
    var id := seq(IdLength, i requires 0 <= i < IdLength => Alphabet[draw(p + i) % |Alphabet|]);
    forall i | 0 <= i < |id|
      ensures IsAsciiAlnum(id[i])
    {
      AlphabetIsAsciiAlnum(draw(p + i) % |Alphabet|);
    }
    id
  }

  /** The record `data` the handler builds from a user id and its answers. */
  function Record(id: string, response: map<string, Value>): Value {
    Obj(map[VersionField := Str(VersionTag), UserIdField := Str(id), ResponseField := Obj(response)])
  }

  /** One record: the user id, then the question count, then one draw per answer. */
  function GenerateRecord(draw: Entropy, p: nat): (g: Generated<Value>)
    ensures p + IdLength + 2 <= g.next <= p + IdLength + 1 + MaxQuestions
  {
    var id := UserId(draw, p);
    var k := 1 + draw(p + IdLength) % MaxQuestions;
    Generated(Record(id, Answers(draw, p + IdLength + 1, k)), p + IdLength + 1 + k)
  }

  /** A record takes the six `userid` draws, the question-count draw, and one draw per question it answers. */
  lemma GenerateRecordDraws(draw: Entropy, p: nat)
    ensures GenerateRecord(draw, p).value.Obj?
    ensures ResponseField in GenerateRecord(draw, p).value.fields
    ensures GenerateRecord(draw, p).value.fields[ResponseField].Obj?
    ensures GenerateRecord(draw, p).next == p + IdLength + 1 + |GenerateRecord(draw, p).value.fields[ResponseField].fields|
  {
    var k := 1 + draw(p + IdLength) % MaxQuestions;
    var response := Answers(draw, p + IdLength + 1, k);
    AnswersShape(draw, p + IdLength + 1, k);
    QuestionKeysCount(k);
    assert |response| == |response.Keys| == k;
  }

  /** Every generated record has the fixed version, a well-formed user id and 1 to 10 answered questions. */
  lemma GenerateRecordWellShaped(draw: Entropy, p: nat)
    ensures WellShaped(GenerateRecord(draw, p).value)
  {
    var id := UserId(draw, p);
    var k := 1 + draw(p + IdLength) % MaxQuestions;
    var response := Answers(draw, p + IdLength + 1, k);
    AnswersShape(draw, p + IdLength + 1, k);
    QuestionKeysCount(k);
    assert |response| == |response.Keys| == k;
    assert IsResponse(response);
    var v := Record(id, response);
    assert v.fields.Keys == {VersionField, UserIdField, ResponseField};
  }

  /** The inner loop: `m` records generated one after another from draw `p` on. */
  function GenerateBatch(draw: Entropy, p: nat, m: nat): (g: Generated<seq<Value>>)
    ensures |g.value| == m
    ensures p <= g.next
    decreases m
  {
    if m == 0 then Generated([], p)
    else
      var before := GenerateBatch(draw, p, m - 1);
      var r := GenerateRecord(draw, before.next);
      Generated(before.value + [r.value], r.next)
  }

  lemma {:induction false} GenerateBatchWellShaped(draw: Entropy, p: nat, m: nat)
    ensures forall j :: 0 <= j < m ==> WellShaped(GenerateBatch(draw, p, m).value[j])
    decreases m
  {
    if m > 0 {
      var before := GenerateBatch(draw, p, m - 1);
      GenerateBatchWellShaped(draw, p, m - 1);
      GenerateRecordWellShaped(draw, before.next);
    }
  }

  /**
    The batches of the first `n` rounds, each of `m` records, generated from
    draw 0 on. `Schedule(Round(draw, m), n)` is the same recursion over an
    abstract round (`ScheduleOfRound`); both are kept so that the shape
    lemmas below see the concrete generator while the send loop's proof sees
    only an abstract round, which keeps the record's definition out of it.
  */
  function GenerateBatches(draw: Entropy, n: nat, m: nat): (g: Generated<seq<seq<Value>>>)
    ensures |g.value| == n
    ensures forall b :: 0 <= b < n ==> |g.value[b]| == m
    decreases n
  {
    if n == 0 then Generated([], 0)
    else
      var before := GenerateBatches(draw, n - 1, m);
      var batch := GenerateBatch(draw, before.next, m);
      Generated(before.value + [batch.value], batch.next)
  }

  lemma {:induction false} GenerateBatchesWellShaped(draw: Entropy, n: nat, m: nat)
    ensures forall b, j :: 0 <= b < n && 0 <= j < m ==> WellShaped(GenerateBatches(draw, n, m).value[b][j])
    decreases n
  {
    if n > 0 {
      var before := GenerateBatches(draw, n - 1, m);
      GenerateBatchesWellShaped(draw, n - 1, m);
      GenerateBatchWellShaped(draw, before.next, m);
    }
  }

  /** The batches joined in order, as `output_data.extend` accumulates them. */
  function Flatten(batches: seq<seq<Value>>): (out: seq<Value>)
    decreases |batches|
  {
    if |batches| == 0 then [] else Flatten(batches[..|batches| - 1]) + batches[|batches| - 1]
  }

  lemma {:induction false} FlattenLength(batches: seq<seq<Value>>, m: nat)
    requires forall b :: 0 <= b < |batches| ==> |batches[b]| == m
    ensures |Flatten(batches)| == |batches| * m
    decreases |batches|
  {
    if |batches| > 0 {
      FlattenLength(batches[..|batches| - 1], m);
    }
  }

  /** What the POST of one batch produced. */
  datatype PostResult =
    | Responded(status: int, details: string)   // `urlopen` returned a response
    | Raised(message: string)                   // `urlopen`, or reading its response, raised

  /** The outcome of POSTing `batch` as the round numbered by the first argument. */
  type Poster = (nat, seq<Value>) -> PostResult

  predicate Delivered(r: PostResult) {
    r.Responded? && r.status == 200
  }

  /** A run: the reply, and the batches POSTed, in order. */
  datatype Run = Run(reply: Reply, sent: seq<seq<Value>>)

  const MissingArgumentsReply: Reply := Reply(400, Str("Please provide M and N values."))

  function SuccessReply(output: seq<Value>): Reply {
    Reply(200, Obj(map["message" := Str("Data sent successfully"), "output_data" := Arr(output)]))
  }

  /** The reply for the first POST that was not delivered. */
  function FailureReply(r: PostResult): (reply: Reply)
    requires !Delivered(r)
    ensures reply.statusCode != 200
    ensures r.Raised? ==> reply.statusCode == 500
    ensures r.Responded? ==> reply.statusCode == r.status
  {
    match r
    case Responded(status, details) =>
      Reply(status, Obj(map["error" := Str("Failed to send data to API Gateway"), "details" := Str(details)]))
    case Raised(message) =>
      Reply(500, Obj(map["error" := Str("Exception occurred"), "details" := Str(message)]))
  }

  /** `range(x)` runs `max(x, 0)` times. */
  function Rounds(x: int): nat {
    if x < 0 then 0 else x
  }

  /** The inner loop of one round: `m` records generated from draw `p` on. */
  method GenerateRound(draw: Entropy, p: nat, m: nat) returns (batch: seq<Value>, q: nat)
    ensures Generated(batch, q) == GenerateBatch(draw, p, m)
  {
    batch := [];
    q := p;
    var j: nat := 0;
    while j < m
      invariant j <= m
      invariant GenerateBatch(draw, p, j) == Generated(batch, q)
    {
      var record := GenerateRecord(draw, q);
      batch := batch + [record.value];
      q := record.next;
      j := j + 1;
    }
  }

  /** What one round generates from a draw position on: its batch, and the draw after it. */
  type RoundGenerator = nat -> Generated<seq<Value>>

  /** The handler's round: `m` records generated from the given draw on. */
  function Round(draw: Entropy, m: nat): RoundGenerator {
    (p: nat) => GenerateBatch(draw, p, m)
  }

  /** The batches of the first `n` rounds of `round`, each drawing from where the previous one stopped. */
  function Schedule(round: RoundGenerator, n: nat): Generated<seq<seq<Value>>>
    decreases n
  {
    if n == 0 then Generated([], 0)
    else
      var before := Schedule(round, n - 1);
      var g := round(before.next);
      Generated(before.value + [g.value], g.next)
  }

  /** The handler's rounds are the generated batches. */
  lemma {:induction false} ScheduleOfRound(draw: Entropy, m: nat, n: nat)
    ensures Schedule(Round(draw, m), n) == GenerateBatches(draw, n, m)
    decreases n
  {
    if n > 0 {
      ScheduleOfRound(draw, m, n - 1);
    }
  }

  /** Every one of the `n` rounds was POSTed and answered 200. */
  predicate Completed(run: Run, n: nat, post: Poster) {
    |run.sent| == n && forall b :: 0 <= b < n ==> Delivered(post(b, run.sent[b]))
  }

  /**
    What a run of `n` rounds may look like: at most `n` batches were sent,
    in generation order, every one but the last delivered. It replies 200
    exactly when every round was sent and delivered, and then `output_data`
    holds the sent records in order; otherwise the last batch sent is the
    first one not delivered, and the reply is built from its POST outcome.
  */
  predicate Reported(n: nat, round: RoundGenerator, post: Poster, run: Run) {
    && |run.sent| <= n
    && run.sent == Schedule(round, |run.sent|).value
    && (forall b :: 0 <= b < |run.sent| - 1 ==> Delivered(post(b, run.sent[b])))
    && (run.reply.statusCode == 200 <==> Completed(run, n, post))
    && (Completed(run, n, post) ==> run.reply == SuccessReply(Flatten(run.sent)))
    && (!Completed(run, n, post) ==>
          && |run.sent| >= 1
          && !Delivered(post(|run.sent| - 1, run.sent[|run.sent| - 1]))
          && run.reply == FailureReply(post(|run.sent| - 1, run.sent[|run.sent| - 1])))
  }

  /**
    In a run that sends the handler's rounds in order (as every `Reported`
    run does), every batch sent has exactly `m` well-shaped records, and a
    completed run outputs `n*m` records.
  */
  lemma ReportedBatchesWellShaped(n: nat, m: nat, draw: Entropy, post: Poster, run: Run)
    requires run.sent == Schedule(Round(draw, m), |run.sent|).value
    ensures forall b :: 0 <= b < |run.sent| ==> |run.sent[b]| == m
    ensures forall b, j :: 0 <= b < |run.sent| && 0 <= j < m ==> WellShaped(run.sent[b][j])
    ensures Completed(run, n, post) ==> |Flatten(run.sent)| == n * m
  {
    ScheduleOfRound(draw, m, |run.sent|);
    GenerateBatchesWellShaped(draw, |run.sent|, m);
    FlattenLength(run.sent, m);
  }

  /** A run that stops at the first undelivered batch is reported as such. */
  lemma FailedRunReported(n: nat, round: RoundGenerator, post: Poster, run: Run)
    requires 1 <= |run.sent| <= n
    requires run.sent == Schedule(round, |run.sent|).value
    requires forall b :: 0 <= b < |run.sent| - 1 ==> Delivered(post(b, run.sent[b]))
    requires !Delivered(post(|run.sent| - 1, run.sent[|run.sent| - 1]))
    requires run.reply == FailureReply(post(|run.sent| - 1, run.sent[|run.sent| - 1]))
    ensures Reported(n, round, post, run)
  {
  }

  /**
    The rounds from round `i` on, as a recursive definition: `sent` holds the
    `i` batches already delivered and `p` the next draw.
  */
  function SendFrom(n: nat, round: RoundGenerator, post: Poster, i: nat, p: nat, sent: seq<seq<Value>>): Run
    requires i <= n
    decreases n - i
  {
    if i == n then Run(SuccessReply(Flatten(sent)), sent)
    else
      var g := round(p);
      var outcome := post(i, g.value);
      if !Delivered(outcome) then Run(FailureReply(outcome), sent + [g.value])
      else SendFrom(n, round, post, i + 1, g.next, sent + [g.value])
  }

  /** The rounds from any point reached by delivering the scheduled batches are reported as such. */
  lemma {:induction false} SendFromReported(n: nat, round: RoundGenerator, post: Poster, i: nat, p: nat, sent: seq<seq<Value>>)
    requires i == |sent| <= n
    requires Schedule(round, i) == Generated(sent, p)
    requires forall b :: 0 <= b < i ==> Delivered(post(b, sent[b]))
    ensures Reported(n, round, post, SendFrom(n, round, post, i, p, sent))
    decreases n - i
  {
    var run := SendFrom(n, round, post, i, p, sent);
    if i < n {
      var g := round(p);
      var sent' := sent + [g.value];
      assert Schedule(round, i + 1) == Generated(sent', g.next);
      if !Delivered(post(i, g.value)) {
        assert run.sent == sent' && sent'[i] == g.value;
        FailedRunReported(n, round, post, run);
      } else {
        forall b | 0 <= b < i + 1
          ensures Delivered(post(b, sent'[b]))
        {
          if b < i {
            assert sent'[b] == sent[b];
          } else {
            assert sent'[b] == g.value;
          }
        }
        SendFromReported(n, round, post, i + 1, g.next, sent');
      }
    }
  }

  /** `lambda_handler(event, context)`, with `int(event['N'])` and `int(event['M'])` already converted. */
  method Handle(event: map<string, int>, draw: Entropy, post: Poster) returns (run: Run)
    ensures "N" !in event || "M" !in event ==> run == Run(MissingArgumentsReply, [])
    ensures "N" in event && "M" in event ==> Reported(Rounds(event["N"]), Round(draw, Rounds(event["M"])), post, run)
  {
    if "N" !in event || "M" !in event {
      return Run(MissingArgumentsReply, []);
    }
    var n, m := Rounds(event["N"]), Rounds(event["M"]);
    run := SendRounds(n, m, draw, post);
    SendFromReported(n, Round(draw, m), post, 0, 0, []);
  }

  lemma FlattenStep(batches: seq<seq<Value>>, batch: seq<Value>)
    ensures Flatten(batches + [batch]) == Flatten(batches) + batch
  {
  }

  /** The loop of the handler: `n` rounds of `m` records, stopping at the first undelivered POST. */
  method SendRounds(n: nat, m: nat, draw: Entropy, post: Poster) returns (run: Run)
    ensures run == SendFrom(n, Round(draw, m), post, 0, 0, [])
  {
    var output: seq<Value> := [];
    var sent: seq<seq<Value>> := [];
    var p: nat := 0;
    var i: nat := 0;
    while i < n
      invariant i <= n
      invariant output == Flatten(sent)
      invariant SendFrom(n, Round(draw, m), post, i, p, sent) == SendFrom(n, Round(draw, m), post, 0, 0, [])
    {
      var batch, q := GenerateRound(draw, p, m);
      FlattenStep(sent, batch);
      output := output + batch;
      sent := sent + [batch];
      p := q;
      var outcome := post(i, batch);
      if !Delivered(outcome) {
        return Run(FailureReply(outcome), sent);
      }
      i := i + 1;
    }
    run := Run(SuccessReply(output), sent);
  }
}

=== FILE: sqs_consumer.dfy ===
/**
  The queue consumer: for every queue record it takes the parsed body, treats a
  list body as a sequence of messages and any other body as one message, checks
  each message for a truthy `userid`, `Version` and `response`, and upserts the
  valid ones into the table. The outcome of every store call is a parameter.
*/
module Consumer {
  import opened Wrappers
  import opened Json
  import opened Schema
  import opened Store

  /** What `update_item` does for one message. */
  datatype StoreOutcome =
    | Applied                              // the update succeeds
    | ConditionFailed(putSucceeds: bool)   // ConditionalCheckFailedException, then `put_item` succeeds or raises
    | Failed                               // any other exception, caught and logged

  /** The exceptions that escape the handler. */
  datatype Crash =
    | NotAnObject   // `message.get` on a value that is not a dictionary
    | PutRaised     // `put_item` raised inside the exception handler
    | Malformed     // `json.loads` rejected the record body

  /** A queue record's body: parsed JSON, or text `json.loads` rejects. */
  datatype Body = Parsed(value: Value) | Unparsable
  datatype QueueRecord = QueueRecord(body: Body)

  /** The outcome of the store call for message `j` of record `i`. */
  type StoreOracle = (nat, nat) -> StoreOutcome

  /** The table after a run of messages, and the exception that stopped it, if any. */
  datatype Progress = Progress(table: Table, crash: Option<Crash>)

  /** One handler invocation: the table it leaves and what it returned or raised. */
  datatype Invocation = Invocation(table: Table, reply: Result<Reply, Crash>)

  const SuccessReply: Reply := Reply(200, Str("Request was successful"))

  /** The message passes the handler's check: `userid`, `Version` and `response` are all truthy. */
  predicate Complete(m: Value) {
    && m.Obj?
    && Truthy(Field(m, UserIdField))
    && Truthy(Field(m, VersionField))
    && Truthy(Field(m, ResponseField))
  }

  /**
    The key a complete message is written under. A truthy `userid` that is not
    a string is refused by the table's string key type, and that refusal is
    caught like any other store error.
  */
  function Target(m: Value): Option<string> {
    if Complete(m) && Field(m, UserIdField).Str? then Some(Field(m, UserIdField).s) else None
  }

  /** The message reaches the table with this store outcome. */
  predicate Writes(m: Value, o: StoreOutcome) {
    Target(m).Some? && (o.Applied? || o == ConditionFailed(true))
  }

  /** The message is a dictionary that leaves the table alone: incomplete, badly keyed, or its update failed. */
  predicate Inert(m: Value, o: StoreOutcome) {
    m.Obj? && (Target(m).None? || o.Failed?)
  }

  /** Processing the message raises: it is not a dictionary, or the fallback `put_item` failed. */
  predicate Raises(m: Value, o: StoreOutcome) {
    !m.Obj? || (Target(m).Some? && o == ConditionFailed(false))
  }

  /** `process_message`: validation, then the upsert with its two exception handlers. */
  function ProcessMessage(t: Table, m: Value, o: StoreOutcome): (r: Result<Table, Crash>)
    ensures r.Failure? <==> Raises(m, o)
    ensures m.Obj? && !Complete(m) ==> r == Success(t)
    ensures Inert(m, o) ==> r == Success(t)
    ensures r.Success? && !Writes(m, o) ==> r.value == t
    ensures Writes(m, o) ==> (
      && r.Success?
      && var u := Target(m).value;
      && u in r.value
      && VersionField in r.value[u] && r.value[u][VersionField] == Field(m, VersionField)
      && ResponseField in r.value[u] && r.value[u][ResponseField] == Field(m, ResponseField))
    ensures r.Success? && Target(m).Some? ==> SameExcept(t, r.value, Target(m).value)
    ensures o.Applied? && Target(m).Some? && Target(m).value in t ==>
      var u := Target(m).value;
      && r.Success?
      && r.value[u].Keys == t[u].Keys + {VersionField, ResponseField}
      && forall a :: a in t[u] && a != VersionField && a != ResponseField ==> r.value[u][a] == t[u][a]
    ensures r.Success? && WellKeyed(t) ==> WellKeyed(r.value)
  {
    if !m.Obj? then Failure(NotAnObject)
    else if !Complete(m) then Success(t)
    else
      match Target(m)
      case None => Success(t)
      case Some(u) =>
        var version := Field(m, VersionField);
        var response := Field(m, ResponseField);
        match o
        case Applied => Success(UpdateItem(t, u, version, response))
        case ConditionFailed(putSucceeds) =>
          if putSucceeds then Success(PutItem(t, u, version, response)) else Failure(PutRaised)
        case Failed => Success(t)
  }

  /** Processes `msgs` in order, message `j` meeting store outcome `outs[j]`; stops at the first exception. */
  function ProcessMessages(t: Table, msgs: seq<Value>, outs: seq<StoreOutcome>): (r: Progress)
    requires |outs| == |msgs|
    ensures t.Keys <= r.table.Keys
    ensures WellKeyed(t) ==> WellKeyed(r.table)
    ensures r.crash.None? <==> forall j :: 0 <= j < |msgs| ==> !Raises(msgs[j], outs[j])
    decreases |msgs|
  {
    if |msgs| == 0 then Progress(t, None)
    else
      match ProcessMessage(t, msgs[0], outs[0])
      case Failure(e) => Progress(t, Some(e))
      case Success(t') => ProcessMessages(t', msgs[1..], outs[1..])
  }

  /** The messages a parsed body carries: the elements of a list, or the body itself. */
  function Messages(body: Value): seq<Value> {
    if body.Arr? then body.items else [body]
  }

  /** The store outcomes the oracle gives for the `n` messages of record `i`. */
  function Outcomes(store: StoreOracle, i: nat, n: nat): seq<StoreOutcome> {
    seq(n, j requires 0 <= j < n => store(i, j))
  }

  /** `lambda_handler` from record `i` on. */
  function HandleFrom(t: Table, records: seq<QueueRecord>, i: nat, store: StoreOracle): (r: Invocation)
    requires i <= |records|
    decreases |records| - i
  {
    if i == |records| then Invocation(t, Success(SuccessReply))
    else
      match records[i].body
      case Unparsable => Invocation(t, Failure(Malformed))
      case Parsed(v) =>
        var msgs := Messages(v);
        var p := ProcessMessages(t, msgs, Outcomes(store, i, |msgs|));
        if p.crash.Some? then Invocation(p.table, Failure(p.crash.value))
        else HandleFrom(p.table, records, i + 1, store)
  }

  /** `lambda_handler(event, context)` with `event['Records'] == records`. */
  function Handle(t: Table, records: seq<QueueRecord>, store: StoreOracle): (r: Invocation)
    ensures r.reply.Success? ==> r.reply.value == SuccessReply
    ensures WellKeyed(t) ==> WellKeyed(r.table)
  {
    HandleReturnsOnlySuccess(t, records, 0, store);
    HandleFrom(t, records, 0, store)
  }

  /**
    From record `i` on, the handler keeps every item keyed by its own `userid`;
    and the only reply it can return is the fixed 200 reply.
  */
  lemma {:induction false} HandleReturnsOnlySuccess(t: Table, records: seq<QueueRecord>, i: nat, store: StoreOracle)
    requires i <= |records|
    ensures HandleFrom(t, records, i, store).reply.Success? ==> HandleFrom(t, records, i, store).reply.value == SuccessReply
    ensures WellKeyed(t) ==> WellKeyed(HandleFrom(t, records, i, store).table)
    decreases |records| - i
  {
    if i < |records| && records[i].body.Parsed? {
      var msgs := Messages(records[i].body.value);
      var p := ProcessMessages(t, msgs, Outcomes(store, i, |msgs|));
      if p.crash.None? {
        HandleReturnsOnlySuccess(p.table, records, i + 1, store);
      }
    }
  }
}

=== FILE: store.dfy ===
/**
  The key-value table the consumer writes: one item per `userid`, each item a
  map from attribute name to value. Only the two write operations the consumer
  issues are modelled.
*/
module Store {
  import opened Json
  import opened Schema

  type Item = map<string, Value>
  type Table = map<string, Item>

  /** Every item carries its own partition key as the string attribute `userid`. */
  predicate WellKeyed(t: Table) {
    forall k :: k in t ==> UserIdField in t[k] && t[k][UserIdField] == Str(k)
  }

  /** `t'` differs from `t` at most in the entry for `key`. */
  predicate SameExcept(t: Table, t': Table, key: string) {
    && (forall k :: k in t && k != key ==> k in t' && t'[k] == t[k])
    && (forall k :: k in t' && k != key ==> k in t)
  }

  /** The item `put_item` writes for a message: exactly the key and the two stored fields. */
  function NewItem(key: string, version: Value, response: Value): Item {
    map[UserIdField := Str(key), VersionField := version, ResponseField := response]
  }

  /**
    `update_item(Key={'userid': key}, UpdateExpression="SET Version = :version,
    #response_attr = :response_value")` with `#response_attr` bound to `response`.
    An update of a missing key creates the item from the key alone.
  */
  function UpdateItem(t: Table, key: string, version: Value, response: Value): (r: Table)
    ensures key in r
    ensures VersionField in r[key] && r[key][VersionField] == version
    ensures ResponseField in r[key] && r[key][ResponseField] == response
    ensures SameExcept(t, r, key)
    ensures key in t ==> r[key].Keys == t[key].Keys + {VersionField, ResponseField}
    ensures key in t ==> forall a :: a in t[key] && a != VersionField && a != ResponseField ==> r[key][a] == t[key][a]
    ensures key !in t ==> r[key] == NewItem(key, version, response)
    ensures WellKeyed(t) ==> WellKeyed(r)
  {
    var base := if key in t then t[key] else map[UserIdField := Str(key)];
    t[key := base[VersionField := version][ResponseField := response]]
  }

  /** `put_item(Item={'userid': key, 'Version': version, 'response': response})`: replaces the whole item. */
  function PutItem(t: Table, key: string, version: Value, response: Value): (r: Table)
    ensures key in r && r[key] == NewItem(key, version, response)
    ensures r[key].Keys == {UserIdField, VersionField, ResponseField}
    ensures SameExcept(t, r, key)
    ensures WellKeyed(t) ==> WellKeyed(r)
  {
    t[key := NewItem(key, version, response)]
  }

  /** On a key the table does not hold yet, the fallback `put_item` leaves the same table as the update. */
  lemma PutMatchesUpdateOnNewKey(t: Table, key: string, version: Value, response: Value)
    requires key !in t
    ensures PutItem(t, key, version, response) == UpdateItem(t, key, version, response)
  {
  }

  /** On a key the table holds, the two differ exactly when the old item had attributes besides the three written. */
  lemma PutDropsOtherAttributes(t: Table, key: string, version: Value, response: Value)
    requires WellKeyed(t) && key in t
    ensures PutItem(t, key, version, response) == UpdateItem(t, key, version, response)
        <==> t[key].Keys <= {UserIdField, VersionField, ResponseField}
  {
    var u := UpdateItem(t, key, version, response);
    var p := PutItem(t, key, version, response);
    if t[key].Keys <= {UserIdField, VersionField, ResponseField} {
      assert u[key].Keys == p[key].Keys;
      assert u[key][UserIdField] == p[key][UserIdField];
      assert u[key] == p[key];
    } else {
      var a :| a in t[key] && a !in {UserIdField, VersionField, ResponseField};
      assert a in u[key] && a !in p[key];
    }
  }
}

=== FILE: wrappers.dfy ===
/** Failure-carrying result types shared by the handlers. */
module Wrappers {

  /** A value that may be absent, like Python's `None`. */
  datatype Option<+T> = None | Some(value: T) {
    /** The value, or `default` when absent. */
    function GetOr(default: T): T {
      if Some? then value else default
    }
  }

  /** Either a computed value or the exception that ended the computation. */
  datatype Result<+T, +E> = Success(value: T) | Failure(error: E)
}
